=== FILE: README.md ===
# ask-ai: a Dafny model of the command assistant's core

The program turns a natural-language request into a shell command. It asks an
OpenAI-compatible backend for the command, strips the Markdown fence around
the reply, and refuses the command if it contains a denylisted substring.
Otherwise it asks the operator for confirmation, runs the command through
`sh -c`, and feeds the outcome back into the next request. It stops after at
most three attempts. Everything it does lives in `src/main.rs`.

This project models four pieces of that file, each as pure Dafny functions
with lemmas about them:

- `SafetyGate` (`safety_gate.dfy`) models `DANGEROUS_COMMANDS` and
  `is_dangerous_command`. The command is lowercased, then tested for plain
  substring containment of six fixed entries.
- `Sanitizer` (`sanitizer.dfy`) models `clean_command_output`.
  - The regular expression ```` ```(?:shell|bash)?\s*\n?([\s\S]*?)``` ```` is
    modelled by what its leftmost-first match computes: the first fence that
    has a later fence at least three characters on.
  - An optional `shell`/`bash` tag directly after that fence is skipped.
  - The captured text runs up to the next fence and is trimmed.
  - Without such a pair of fences the whole reply is trimmed.
- `PromptBuilder` (`prompt_builder.dfy`) models `get_system_info`,
  `full_prompt` and the `user_prompt` match.
  - The operating system and the environment are parameters: an `Os` value,
    and a map from variables to their values. The map holds only the
    variables that `env::var` can read: those that are set to valid Unicode.
    An unset variable and one set to non-Unicode bytes are both absent from
    the map, and both are shown as "Unknown", as in the source.
- `AttemptLoop` (`attempt_loop.dfy`) models the attempt loop of `main`.
  - A script `nat -> Round` gives, for each attempt, the collaborators'
    answers: the backend reply or error, the "execute?" answer, the execution
    outcome or spawn error, and the "goal met?" answer.
  - `Pass` is one iteration and `Drive`/`Run` is the loop.
  - The methods `Attempt` and `AskLoop` are the same loop written
    imperatively, with early `return`s; they are proved equal to
    `Pass`/`Run`.
  - The loop state records the following:
    - the attempt counter and the single history slot;
    - the history argument of every backend call;
    - every execution record;
    - how often the goal question was asked;
    - whether the "maximum attempts reached" notice was printed;
    - the final verdict.
  - `Consistent` is the invariant every reached state satisfies.

Supporting modules:

- `Text` (`text.dfy`) holds these operations:
  - Rust's `trim`, over the Unicode White_Space set that both `trim` and the
    regex class `\s` use;
  - substring search;
  - the lowercase mapping;
  - decimal rendering of integers.
- `History` (`history.dfy`) holds the `ExecutionHistory` record.
- `Wrappers` (`wrappers.dfy`) holds `Option`.

The entry `"chmod -R"` (`src/main.rs:45`) keeps an uppercase `R`, but
`is_dangerous_command` compares the entries against the lowercased command
(`src/main.rs:108`). That entry can therefore never match, and a recursive
permission change such as `chmod -R 777 /` is not flagged. The model keeps
this behaviour on purpose: see `SafetyGate.ChmodEntryNeverFires` and
`SafetyGate.RecursiveChmodAllowed`.

## Model

| member | source | states |
|---|---|---|
| SafetyGate.Denylist | src/main.rs:40-47 | defined as the six entries of the source, in its order: "rm -rf", "mkfs", "dd", "> /dev/", "chmod -R" and the shell fork bomb |
| SafetyGate.IsDangerous | src/main.rs:105-109 | a command is flagged iff its lowercase form contains some denylist entry |
| SafetyGate.AnyEntryIn | src/main.rs:105-109 | the `any` scan is true exactly when some entry of the list occurs in the lowered command |
| SafetyGate.CaseInsensitive | src/main.rs:108 | two commands that differ only in letter case get the same verdict |
| SafetyGate.UppercaseKeepsVerdict | src/main.rs:108 | ASCII upper-casing of a command never changes the verdict |
| SafetyGate.ChmodEntryNeverFires | src/main.rs:45 | the entry "chmod -R" never occurs in a lowercased command |
| SafetyGate.EffectiveDenylist | src/main.rs:40-47 | the verdict is decided by the five entries other than "chmod -R" |
| SafetyGate.DangerousInContext | src/main.rs:105-109 | a dangerous command stays dangerous with any text before and after it |
| SafetyGate.UppercaseDeleteRefused | src/main.rs:41 | "RM -RF /" is flagged |
| SafetyGate.RecursiveChmodAllowed | src/main.rs:45 | "chmod -R 777 /" is not flagged |
| SafetyGate.DdOverMatches | src/main.rs:43 | "git add ." is flagged, because "dd" occurs inside "add" |
| SafetyGate.KelvinSignSpellsMkfs | src/main.rs:108 | KELVIN SIGN lowercases to 'k', so "m\u{212A}fs /dev/sda1" is flagged |
| SafetyGate.ListingAllowed | src/main.rs:105-109 | "ls -la" is not flagged |
| Text.LowerChar | src/main.rs:108 | 'A'-'Z' go to 'a'-'z', KELVIN SIGN goes to 'k', every other character is kept, and no result is an uppercase ASCII letter |
| Text.Lower | src/main.rs:108 | lowercasing keeps the length and maps each character by the lowercase mapping, which leaves no 'A'-'Z' |
| Text.Trim | src/main.rs:114 | the result has no outer whitespace, is a slice of the input, and everything cut off is whitespace; a trimmed input is returned unchanged |
| Text.Decimal | src/main.rs:134-135 | the `{}` rendering of the counter is a non-empty string of decimal digits with no leading zero, except for 0 itself |
| Text.DecimalRoundTrip | src/main.rs:134-135 | the decimal rendering of the attempt number parses back to the number |
| Text.DecimalInjective | src/main.rs:134-135 | different attempt numbers render differently |
| Sanitizer.Capture | src/main.rs:112-113 | a capture exists iff the text has a fence with a later fence; it starts after the first fence and its tag, and it ends at the first fence after that, with no fence inside |
| Sanitizer.Clean | src/main.rs:111-118 | the sanitized command has no leading or trailing whitespace |
| Sanitizer.CleanAt | src/main.rs:112-114 | given the first fence, the tag after it and the next fence, the result is the trimmed text in between |
| Sanitizer.CleanExtractsBlock | src/main.rs:112-114 | for text, fence, optional `shell`/`bash` tag, fence-free body, fence, anything: the result is the trimmed body |
| Sanitizer.CleanWithoutBlock | src/main.rs:115-117 | with no fence followed by a later fence, the result is the trimmed input |
| Sanitizer.PlainReplyKept | src/main.rs:115-117 | a reply without fences and without outer whitespace is returned unchanged |
| Sanitizer.ExtractedHasNoFence | src/main.rs:112-114 | an extracted command never contains a fence |
| Sanitizer.TrimKeepsNoBlock | src/main.rs:116 | trimming text with no block cannot create one |
| Sanitizer.CleanIdempotent | src/main.rs:111-118 | sanitizing twice gives the same result as sanitizing once |
| Sanitizer.BashBlockExample | src/main.rs:112-114 | "```bash\nls -la\n```" yields "ls -la" |
| PromptBuilder.EnvOrUnknown | src/main.rs:60-63 | a set variable yields its value, an unset one "Unknown" |
| PromptBuilder.BoolText | src/main.rs:135 | the success flag renders as "true" when it is set and as "false" when it is not |
| PromptBuilder.SystemInfo | src/main.rs:49-67 | the snapshot starts with its header and the OS line follows at once; the variable lines are stated by `SnapshotShowsEnvironment` |
| PromptBuilder.SystemText | src/main.rs:131 | the system text is the instructions, a line break, then exactly the snapshot |
| PromptBuilder.SnapshotShowsEnvironment | src/main.rs:65-66 | whatever precedes it, the snapshot shows the OS line and one line per variable with its value or "Unknown" |
| PromptBuilder.SystemTextShowsEnvironment | src/main.rs:131 | the system text shows the OS name and each of SHELL, TERM, USER and PWD, labelled, with its value or "Unknown" |
| PromptBuilder.SystemTextShowsSetVariable | src/main.rs:60-63 | a variable that is set appears with its value |
| PromptBuilder.SystemTextShowsUnsetVariable | src/main.rs:60-63 | a variable that is not set appears as "Unknown" |
| PromptBuilder.EnvLinesFrame | src/main.rs:60-66 | environments that agree on the listed variables give the same lines |
| PromptBuilder.SystemTextFrame | src/main.rs:49-67 | the system text reads no variable other than SHELL, TERM, USER and PWD |
| PromptBuilder.UserPrompt | src/main.rs:132-141 | with no history the text opens with the first-attempt question and the task follows it; with history it opens with the retry question and the task follows that; the lemmas below state the rest |
| PromptBuilder.FirstPromptRoundTrip | src/main.rs:137-140 | the task can be read back from the first-attempt text, and only the text of that task reads back to it |
| PromptBuilder.PromptKindsDiffer | src/main.rs:132-141 | a first-attempt text never equals a retry text |
| PromptBuilder.FirstPromptHasNoHistory | src/main.rs:137-140 | for a one-line task, the first-attempt text is one line and holds none of the history labels |
| PromptBuilder.RetryPromptEmbedsInOrder | src/main.rs:133-136 | the retry text holds the task, then the labelled previous command, output, success flag and attempt number, in this order, at computed offsets |
| PromptBuilder.RetryPromptShowsPrevious | src/main.rs:133-136 | the retry text contains the previous command and its output |
| AttemptLoop.Pass | src/main.rs:189-273 | a pass that does not end the loop advances the counter by exactly one |
| AttemptLoop.Drive | src/main.rs:189-275 | the loop always ends with a verdict |
| AttemptLoop.Record | src/main.rs:244-273 | an execution overwrites the history slot, is appended to the records, and counts a goal question iff it succeeded; the loop stops with `GoalMet` iff it succeeded and the goal was met, otherwise the counter advances and the notice is printed iff it passed three |
| AttemptLoop.Run | src/main.rs:185-277 | the loop from the start state (counter 1, empty history) always ends with a verdict; the run-level lemmas below state what that final state holds |
| AttemptLoop.Attempt | src/main.rs:190-273 | the imperative loop body, with its early exits, computes the same state as `Pass` |
| AttemptLoop.Finish | src/main.rs:244-273 | the end of an executing pass computes the same state as `Record` |
| AttemptLoop.AskLoop | src/main.rs:185-277 | the imperative loop computes the same final state as `Run` |
| AttemptLoop.PassKeepsConsistent | src/main.rs:189-273 | every pass keeps the loop invariant |
| AttemptLoop.DriveKeepsConsistent | src/main.rs:188-275 | the invariant holds when the loop ends |
| AttemptLoop.RunConsistent | src/main.rs:185-277 | the final state of every run satisfies the invariant and has a verdict |
| AttemptLoop.AtMostThreeCalls | src/main.rs:186-191 | the backend is called at least once and at most three times, and there are never more records than calls |
| AttemptLoop.CallsSeePreviousRecord | src/main.rs:244-249 | the first call carries no history; call k+1 carries the record of attempt k, whose attempt field is k |
| AttemptLoop.RetryTextShowsPreviousAttempt | src/main.rs:132-136 | the user text of every call after the first contains the previous command and its output |
| AttemptLoop.NoticeIffExhausted | src/main.rs:267-273 | the notice is printed iff the loop ran out of attempts, and then three calls were made and three commands ran |
| AttemptLoop.ExecutedCommandsPassedGate | src/main.rs:198-221 | every executed command is the sanitized, trimmed reply of its attempt, was confirmed by the operator and passed the gate |
| AttemptLoop.GoalAskedPerSuccess | src/main.rs:251-255 | the goal question was asked once per successful execution |
| AttemptLoop.GoalMetEndsOnSuccess | src/main.rs:251-258 | a run that stopped at the goal did so on its last attempt, which succeeded; no earlier success had its goal confirmed |
| AttemptLoop.EveryPassAsksOnce | src/main.rs:191 | each pass calls the backend exactly once, with the current history slot |
| AttemptLoop.GateRefusesBeforeRunning | src/main.rs:198-206 | a flagged command ends the loop with `Ok`, in dry-run too, without running and with history, records and questions unchanged |
| AttemptLoop.DryRunStopsBeforeRunning | src/main.rs:208-265 | in dry-run a pass ends the loop without running anything |
| AttemptLoop.DeclineStops | src/main.rs:209-262 | declining the execution ends the loop with `Ok` and runs nothing |
| AttemptLoop.FailedRunMovesOn | src/main.rs:223-267 | a failed run records stderr with the current attempt number, asks nothing, and moves on to the next attempt |
| AttemptLoop.SuccessStopsIffGoal | src/main.rs:223-259 | a successful run records stdout, asks the goal question, and ends the loop iff the goal was met |
| AttemptLoop.FailuresEndInError | src/main.rs:191-221 | a backend failure or a shell that cannot start ends the loop with an error |
| AttemptLoop.DryRunNeverExecutes | src/main.rs:208-265 | a dry run makes one call, records nothing, and stops with dry-run, refusal or a backend error |
| AttemptLoop.AlwaysFailingExhausts | src/main.rs:186-273 | when every command runs and fails, three attempts are used, the notice is printed and the goal question is never asked |
| AttemptLoop.DeleteRefusedAtOnce | src/main.rs:198-206 | a first reply "rm -rf /tmp/x" is refused at once, in dry-run too: one call, no records |
| AttemptLoop.ListingMeetsGoal | src/main.rs:244-258 | a fenced "ls -la" that runs, succeeds and meets the goal ends the loop after one attempt with the record ("ls -la", stdout, true, 1) |

## Left out

- The HTTP request, its JSON body and the path `choices[0].message.content` are left out. So is reading `OPENAI_BASE_URL`, `OPENAI_API_KEY` and `OPENAI_MODEL`. All of them become the scripted `Reply`, either a text or `BackendError`.
- Spawning `sh -c` and decoding its output with `from_utf8_lossy` are left out. The script supplies the execution outcome: a success flag with stdout and stderr, or `SpawnError`.
- Terminal output is dropped, except for whether the notice was printed. This covers `console` styling, the verbose output, the debug printing of both prompts, and a failing `write_line` or confirmation dialog (the `?` on each).
- `clap` argument parsing, `dotenv` and the `tokio` runtime are framework plumbing and are left out.
- AttemptLoop.LoopState records the history argument of each backend call, not the rendered user text. The text of call k is `UserPrompt(task, calls[k])`, and `RetryTextShowsPreviousAttempt` connects the two. The system text is the same for every call and is not recorded.
- SafetyGate.UppercaseKeepsVerdict covers ASCII upper-casing only, because `Text.Upper` maps only `a`-`z`. Under Rust's full `to_uppercase` the claim fails: U+017F (long s) upper-cases to `S` but lowercases to itself, so "mkf\u{17F}" is not flagged while its upper-cased form "MKFS" is.
- Text.Lower, Text.LowerChar: only the lowercase mappings that produce ASCII letters are modelled: `A`-`Z`, and KELVIN SIGN to `k`. Every other character maps to itself here, while Rust's `to_lowercase` also maps other letters, such as `Ä` to `ä`, and expands U+0130 to `i` plus a combining dot. Those mappings produce either a character outside ASCII or, for U+0130, an `i`. Every denylist entry is ASCII and none contains an `i`, so the verdict is the same; the lowercased text itself can differ.
- AttemptLoop.Pass states in its own contract only that a pass which does not stop advances the counter. Its full behaviour is stated by the lemmas `GateRefusesBeforeRunning`, `DryRunStopsBeforeRunning`, `DeclineStops`, `FailedRunMovesOn`, `SuccessStopsIffGoal` and `FailuresEndInError`.
- Sanitizer.Clean states in its own contract only that the result is trimmed. What it extracts is stated by `CleanAt`, `CleanExtractsBlock`, `CleanWithoutBlock` and `CleanIdempotent`.
- The attempt counter is a `u32` in the source. It never exceeds 4, so the model uses an unbounded `nat` and no wrap-around.
- Environment values are strings of Unicode characters. A value of raw bytes that are not valid Unicode has no representation; such a variable is left out of the map, which gives the same "Unknown" the source prints.
- The operating system is a compile-time choice in the source (`cfg!`). Here it is the parameter `Os`.

=== FILE: attempt_loop.dfy ===
/**
 The attempt loop of `main`: ask the backend for a command, sanitize it,
 refuse it if the safety gate flags it, otherwise (unless in dry-run) ask
 whether to run it, run it, remember the outcome as the single history
 record, and ask whether the goal was met when the run succeeded. At most
 three attempts are made.

 Every collaborator is replaced by a script: `script(n)` holds the answers
 the backend, the operator and the shell give during attempt `n`. Terminal
 output is dropped, except whether the "maximum attempts reached" notice was
 printed.
 */
module AttemptLoop {
  import opened Wrappers
  import opened Text
  import opened History
  import opened SafetyGate
  import opened Sanitizer
  import opened PromptBuilder

  const MaxAttempts: nat := 3

  /** What `get_ai_response` got from the backend before sanitizing: the
      message text, or a failure (configuration variable not set, request
      not sent, body not parsed, no text at `choices[0].message.content`). */
  datatype Reply = Answered(text: string) | BackendError

  /** Running the command through the shell: an exit status with the
      captured streams, or a failure to start the shell at all. */
  datatype Execution = Exited(success: bool, stdout: string, stderr: string) | SpawnError

  /** The collaborators' answers during one attempt: the backend's reply, the
      answer to "execute this command?", the execution, and the answer to
      "did the command achieve the goal?". An answer the loop does not ask
      for is ignored. */
  datatype Round = Round(reply: Reply, execute: bool, execution: Execution, goalMet: bool)

  /** Why the loop stopped with `Ok(())`. */
  datatype Stop = GoalMet | Declined | DryRun | Refused | Exhausted

  /** Why the loop stopped with an error. */
  datatype Fault = BackendFault | SpawnFault

  datatype Verdict = Ok(stop: Stop) | Err(fault: Fault)

  /** The loop's state: the attempt counter and the single history slot, plus
      what an observer sees: the history argument of each `get_ai_response`
      call, the records created (one per execution), how often the goal
      question was asked, whether the notice was printed, and the verdict
      once the loop is over. */
  datatype LoopState = LoopState(
    attempt: nat,
    history: Option<ExecutionHistory>,
    calls: seq<Option<ExecutionHistory>>,
    records: seq<ExecutionHistory>,
    goalQuestions: nat,
    notice: bool,
    verdict: Option<Verdict>)

  const Start: LoopState := LoopState(1, None, [], [], 0, false, None)

  /** The captured text kept for the history: stdout on success, stderr otherwise. */
  function OutputText(e: Execution): string
    requires e.Exited?
  {
    if e.success then e.stdout else e.stderr
  }

  /** `attempt += 1`, printing the notice when the counter passes the bound. */
  function Advance(s: LoopState): LoopState {
    s.(attempt := s.attempt + 1, notice := s.attempt + 1 > MaxAttempts)
  }

  /** One pass of the loop body, for attempt `s.attempt`. */
  function Pass(dryRun: bool, round: Round, s: LoopState): (t: LoopState)
    requires s.verdict.None?
    ensures t.verdict.None? ==> t.attempt == s.attempt + 1
  {
    var s1 := s.(calls := s.calls + [s.history]);
    match round.reply
    case BackendError => s1.(verdict := Some(Err(BackendFault)))
    case Answered(text) =>
      var command := Clean(text);
      if IsDangerous(command) then s1.(verdict := Some(Ok(Refused)))
      else if dryRun then s1.(verdict := Some(Ok(DryRun)))
      else if !round.execute then s1.(verdict := Some(Ok(Declined)))
      else
        match round.execution
        case SpawnError => s1.(verdict := Some(Err(SpawnFault)))
        case Exited(success, stdout, stderr) =>
          Record(s, ExecutionHistory(command, if success then stdout else stderr, success, s.attempt), round.goalMet)
  }

  /** The end of a pass that ran the command: the record overwrites the
      history slot; a successful run asks the goal question, and the loop
      stops if the goal was met; otherwise the counter advances. */
  function Record(s: LoopState, r: ExecutionHistory, goalMet: bool): (t: LoopState)
    ensures t.verdict.None? ==> t.attempt == s.attempt + 1
    ensures t.calls == s.calls + [s.history] && t.history == Some(r) && t.records == s.records + [r]
    ensures t.goalQuestions == s.goalQuestions + (if r.success then 1 else 0)
    ensures s.verdict.None? ==> (t.verdict == Some(Ok(GoalMet)) <==> r.success && goalMet)
    ensures s.verdict.None? && !(r.success && goalMet) ==>
      t.verdict.None? && (t.notice <==> s.attempt + 1 > MaxAttempts)
  {
    var u := s.(calls := s.calls + [s.history], history := Some(r), records := s.records + [r],
                goalQuestions := s.goalQuestions + (if r.success then 1 else 0));
    if r.success && goalMet then u.(verdict := Some(Ok(GoalMet))) else Advance(u)
  }

  /** The loop from state `s` on: passes until one stops it or the counter
      exceeds the bound. */
  function Drive(dryRun: bool, script: nat -> Round, s: LoopState): (t: LoopState)
    ensures t.verdict.Some?
    decreases if s.attempt <= MaxAttempts then MaxAttempts + 1 - s.attempt else 0
  {
    if s.verdict.Some? then s
    else if s.attempt > MaxAttempts then s.(verdict := Some(Ok(Exhausted)))
    else
      var t := Pass(dryRun, script(s.attempt), s);
      if t.verdict.Some? then t else Drive(dryRun, script, t)
  }

  /** The whole loop. */
  function Run(dryRun: bool, script: nat -> Round): (t: LoopState)
    ensures t.verdict.Some?
  {
    Drive(dryRun, script, Start)
  }

  /** One pass of the body of `main`'s loop, with its early exits: a verdict
      in the result is a `return` or `break`. It computes exactly `Pass`. */
  method Attempt(dryRun: bool, round: Round, s: LoopState) returns (t: LoopState)
    requires s.verdict.None?
    ensures t == Pass(dryRun, round, s)
  {
    t := s.(calls := s.calls + [s.history]);
    if round.reply.BackendError? {
      return t.(verdict := Some(Err(BackendFault)));
    }
    var command := Clean(round.reply.text);
    if IsDangerous(command) {
      return t.(verdict := Some(Ok(Refused)));
    }
    if dryRun {
      return t.(verdict := Some(Ok(DryRun)));
    }
    if !round.execute {
      return t.(verdict := Some(Ok(Declined)));
    }
    if round.execution.SpawnError? {
      return t.(verdict := Some(Err(SpawnFault)));
    }
    var success := round.execution.success;
    var output := if success then round.execution.stdout else round.execution.stderr;
    var record := ExecutionHistory(command, output, success, s.attempt);
    t := Finish(s, record, round.goalMet);
  }

  /** The rest of a pass after the command ran. It computes exactly `Record`. */
  method Finish(s: LoopState, record: ExecutionHistory, goalMet: bool) returns (t: LoopState)
    ensures t == Record(s, record, goalMet)
  {
    t := s.(calls := s.calls + [s.history], history := Some(record), records := s.records + [record]);
    if record.success {
      t := t.(goalQuestions := t.goalQuestions + 1);
      if goalMet {
        return t.(verdict := Some(Ok(GoalMet)));
      }
    }
    t := t.(attempt := t.attempt + 1);
    t := t.(notice := t.attempt > MaxAttempts);
  }

  /** The loop of `main`: attempts while the counter is within the bound,
      leaving early when an attempt ends the run. It computes exactly `Run`. */
  method AskLoop(dryRun: bool, script: nat -> Round) returns (s: LoopState)
    ensures s == Run(dryRun, script)
  {
    s := Start;
    while s.attempt <= MaxAttempts
      invariant s.verdict.None?
      invariant Drive(dryRun, script, s) == Run(dryRun, script)
      decreases MaxAttempts + 1 - s.attempt
    {
      s := Attempt(dryRun, script(s.attempt), s);
      if s.verdict.Some? {
        return;
      }
    }
    s := s.(verdict := Some(Ok(Exhausted)));
  }

  /** The history argument of call `k` when `records` were created before it:
      none for the first call, the latest record for every later one. */
  function Previous(records: seq<ExecutionHistory>, k: nat): Option<ExecutionHistory>
    requires k <= |records|
  {
    if k == 0 then None else Some(records[k - 1])
  }

  /** How many of the records are successful executions. */
  function Successes(records: seq<ExecutionHistory>): nat {
    if |records| == 0 then 0
    else Successes(records[..|records| - 1]) + (if records[|records| - 1].success then 1 else 0)
  }

  /** `r` is the record attempt `n` creates from `round`: the command was
      sanitized from the reply, passed the gate, was confirmed and ran, and
      the record keeps stdout on success and stderr otherwise. */
  ghost predicate Executed(dryRun: bool, round: Round, r: ExecutionHistory, n: nat) {
    && !dryRun
    && round.execute
    && round.reply.Answered?
    && round.execution.Exited?
    && r == ExecutionHistory(Clean(round.reply.text), OutputText(round.execution), round.execution.success, n)
    && !IsDangerous(r.command)
  }

  /** The counters and lengths of a reached state. */
  ghost predicate Counters(s: LoopState) {
    var continuing := s.verdict.None? || s.verdict == Some(Ok(Exhausted));
    && 1 <= s.attempt <= MaxAttempts + 1
    && (s.notice <==> s.attempt > MaxAttempts)
    && (s.verdict == Some(Ok(Exhausted)) <==> s.verdict.Some? && s.attempt > MaxAttempts)
    && |s.calls| == (if continuing then s.attempt - 1 else s.attempt)
    && |s.records| == (if continuing || s.verdict == Some(Ok(GoalMet)) then |s.calls| else |s.calls| - 1)
  }

  /** The history slot holds the latest record, and the goal question was
      asked once per successful execution. */
  ghost predicate SlotAndQuestions(s: LoopState) {
    && s.history == Previous(s.records, |s.records|)
    && s.goalQuestions == Successes(s.records)
  }

  /** Call `k` received the record of attempt `k`, none for the first call. */
  ghost predicate CallsSeeRecords(calls: seq<Option<ExecutionHistory>>, records: seq<ExecutionHistory>)
    requires |calls| <= |records| + 1
  {
    forall k :: 0 <= k < |calls| ==> calls[k] == Previous(records, k)
  }

  /** Every record is what its attempt's round produced. */
  ghost predicate RecordsFollowScript(dryRun: bool, script: nat -> Round, records: seq<ExecutionHistory>) {
    forall i :: 0 <= i < |records| ==> Executed(dryRun, script(i + 1), records[i], i + 1)
  }

  /** The loop `stopped` at the goal exactly when the last record succeeded
      and its goal was confirmed; no earlier record did both. */
  ghost predicate GoalEndsRun(script: nat -> Round, records: seq<ExecutionHistory>, stopped: bool) {
    && (forall i :: 0 <= i < |records| && records[i].success && script(i + 1).goalMet ==>
          i == |records| - 1 && stopped)
    && (stopped ==> 0 < |records| && records[|records| - 1].success && script(|records|).goalMet)
  }

  /** What holds of every state the loop reaches from `Start`. */
  ghost predicate Consistent(dryRun: bool, script: nat -> Round, s: LoopState) {
    && Counters(s)
    && SlotAndQuestions(s)
    && CallsSeeRecords(s.calls, s.records)
    && RecordsFollowScript(dryRun, script, s.records)
    && GoalEndsRun(script, s.records, s.verdict == Some(Ok(GoalMet)))
  }

  /** One more call, carrying the latest record, keeps calls and records matched. */
  lemma {:induction false} CallWithLatest(calls: seq<Option<ExecutionHistory>>, records: seq<ExecutionHistory>, records': seq<ExecutionHistory>)
    requires |calls| == |records| && CallsSeeRecords(calls, records)
    requires |records| <= |records'| && records'[..|records|] == records
    ensures CallsSeeRecords(calls + [Previous(records, |records|)], records')
  {
    var c := calls + [Previous(records, |records|)];
    forall k | 0 <= k < |c|
      ensures c[k] == Previous(records', k)
    {
      if k < |calls| {
        assert c[k] == calls[k];
      }
      if 0 < k {
        assert records'[k - 1] == records[k - 1];
      }
    }
  }

  /** A pass that stops before executing anything keeps the invariant. */
  lemma StopKeepsConsistent(dryRun: bool, script: nat -> Round, s: LoopState, v: Verdict)
    requires s.verdict.None? && s.attempt <= MaxAttempts
    requires Consistent(dryRun, script, s)
    requires v != Ok(GoalMet) && v != Ok(Exhausted)
    ensures Consistent(dryRun, script, s.(calls := s.calls + [s.history], verdict := Some(v)))
  {
    assert s.records[..|s.records|] == s.records;
    CallWithLatest(s.calls, s.records, s.records);
  }

  lemma RecordKeepsCounters(s: LoopState, r: ExecutionHistory, goalMet: bool)
    requires s.verdict.None? && s.attempt <= MaxAttempts && Counters(s)
    ensures Counters(Record(s, r, goalMet))
  {
  }

  lemma RecordKeepsSlot(s: LoopState, r: ExecutionHistory, goalMet: bool)
    requires SlotAndQuestions(s)
    ensures SlotAndQuestions(Record(s, r, goalMet))
  {
    var t := Record(s, r, goalMet);
    assert t.records == s.records + [r];
    assert t.records[..|s.records|] == s.records;
  }

  lemma RecordKeepsCalls(s: LoopState, r: ExecutionHistory, goalMet: bool)
    requires s.verdict.None? && s.attempt <= MaxAttempts && Counters(s) && SlotAndQuestions(s)
    requires CallsSeeRecords(s.calls, s.records)
    ensures CallsSeeRecords(Record(s, r, goalMet).calls, Record(s, r, goalMet).records)
  {
    assert (s.records + [r])[..|s.records|] == s.records;
    CallWithLatest(s.calls, s.records, s.records + [r]);
  }

  lemma RecordKeepsScript(dryRun: bool, script: nat -> Round, records: seq<ExecutionHistory>, r: ExecutionHistory, n: nat)
    requires RecordsFollowScript(dryRun, script, records)
    requires n == |records| + 1 && Executed(dryRun, script(n), r, n)
    ensures RecordsFollowScript(dryRun, script, records + [r])
  {
    var t := records + [r];
    forall i | 0 <= i < |t|
      ensures Executed(dryRun, script(i + 1), t[i], i + 1)
    {
      if i < |records| {
        assert t[i] == records[i];
      } else {
        assert i + 1 == n && t[i] == r;
      }
    }
  }

  lemma RecordKeepsGoalRule(script: nat -> Round, records: seq<ExecutionHistory>, r: ExecutionHistory, n: nat, stopped: bool)
    requires GoalEndsRun(script, records, false)
    requires n == |records| + 1 && (stopped <==> r.success && script(n).goalMet)
    ensures GoalEndsRun(script, records + [r], stopped)
  {
    var t := records + [r];
    forall i | 0 <= i < |t|
      ensures t[i].success && script(i + 1).goalMet ==> i == |t| - 1 && stopped
    {
      if i < |records| {
        assert t[i] == records[i];
      }
    }
  }

  /** A pass that ran the command keeps the invariant. */
  lemma RecordKeepsConsistent(dryRun: bool, script: nat -> Round, s: LoopState, r: ExecutionHistory)
    requires s.verdict.None? && s.attempt <= MaxAttempts
    requires Consistent(dryRun, script, s)
    requires Executed(dryRun, script(s.attempt), r, s.attempt)
    ensures Consistent(dryRun, script, Record(s, r, script(s.attempt).goalMet))
  {
    var goalMet := script(s.attempt).goalMet;
    assert |s.records| + 1 == s.attempt;
    RecordKeepsCounters(s, r, goalMet);
    RecordKeepsCalls(s, r, goalMet);
    RecordKeepsSlot(s, r, goalMet);
    RecordKeepsScript(dryRun, script, s.records, r, s.attempt);
    RecordKeepsGoalRule(script, s.records, r, s.attempt, r.success && goalMet);
  }

  /** A pass that does not run the command only adds the call and a verdict. */
  lemma StoppingPass(dryRun: bool, round: Round, s: LoopState)
    requires s.verdict.None? && !Runs(dryRun, round)
    ensures var t := Pass(dryRun, round, s);
      && t.verdict.Some? && t.verdict != Some(Ok(GoalMet)) && t.verdict != Some(Ok(Exhausted))
      && t == s.(calls := s.calls + [s.history], verdict := t.verdict)
  {
    if round.reply.Answered? {
      var command := Clean(round.reply.text);
      if !IsDangerous(command) && !dryRun && round.execute {
        assert round.execution.SpawnError?;
      }
    }
  }

  lemma PassKeepsConsistent(dryRun: bool, script: nat -> Round, s: LoopState)
    requires s.verdict.None? && s.attempt <= MaxAttempts
    requires Consistent(dryRun, script, s)
    ensures Consistent(dryRun, script, Pass(dryRun, script(s.attempt), s))
  {
    var round := script(s.attempt);
    if Runs(dryRun, round) {
      var r := ExecutionHistory(Clean(round.reply.text), OutputText(round.execution), round.execution.success, s.attempt);
      RunningPass(dryRun, round, s);
      RecordKeepsConsistent(dryRun, script, s, r);
    } else {
      StoppingPass(dryRun, round, s);
      StopKeepsConsistent(dryRun, script, s, Pass(dryRun, round, s).verdict.value);
    }
  }

  lemma {:induction false} DriveKeepsConsistent(dryRun: bool, script: nat -> Round, s: LoopState)
    requires Consistent(dryRun, script, s)
    ensures Consistent(dryRun, script, Drive(dryRun, script, s))
    decreases if s.attempt <= MaxAttempts then MaxAttempts + 1 - s.attempt else 0
  {
    if s.verdict.None? && s.attempt <= MaxAttempts {
      PassKeepsConsistent(dryRun, script, s);
      var t := Pass(dryRun, script(s.attempt), s);
      if t.verdict.None? {
        DriveKeepsConsistent(dryRun, script, t);
      }
    }
  }

  /** The finished loop satisfies the invariant. */
  lemma RunConsistent(dryRun: bool, script: nat -> Round)
    ensures Run(dryRun, script).verdict.Some?
    ensures Consistent(dryRun, script, Run(dryRun, script))
  {
    DriveKeepsConsistent(dryRun, script, Start);
  }

  /** The loop makes between one and three backend calls, and never creates
      more records than calls. */
  lemma AtMostThreeCalls(dryRun: bool, script: nat -> Round)
    ensures 1 <= |Run(dryRun, script).calls| <= MaxAttempts
    ensures |Run(dryRun, script).records| <= |Run(dryRun, script).calls|
  {
    RunConsistent(dryRun, script);
  }

  /** The first call carries no history; call `k` after it carries the record
      of attempt `k`, the one just before it. */
  lemma CallsSeePreviousRecord(dryRun: bool, script: nat -> Round)
    ensures |Run(dryRun, script).calls| > 0 && Run(dryRun, script).calls[0] == None
    ensures var t := Run(dryRun, script);
      forall k :: 1 <= k < |t.calls| ==>
        k - 1 < |t.records| && t.calls[k] == Some(t.records[k - 1]) && t.records[k - 1].attempt == k
  {
    RunConsistent(dryRun, script);
    AtMostThreeCalls(dryRun, script);
  }

  /** The text of every call after the first shows the previous command and
      what it printed. */
  lemma RetryTextShowsPreviousAttempt(task: string, dryRun: bool, script: nat -> Round, k: nat)
    requires 1 <= k < |Run(dryRun, script).calls|
    ensures var t := Run(dryRun, script);
      && k - 1 < |t.records|
      && t.calls[k] == Some(t.records[k - 1])
      && Contains(UserPrompt(task, t.calls[k]), t.records[k - 1].command)
      && Contains(UserPrompt(task, t.calls[k]), t.records[k - 1].output)
  {
    RunConsistent(dryRun, script);
    var t := Run(dryRun, script);
    assert t.calls[k] == Previous(t.records, k);
    RetryPromptShowsPrevious(task, t.records[k - 1]);
  }

  /** The notice is printed exactly when the loop ran out of attempts, and
      then all three attempts executed a command. */
  lemma NoticeIffExhausted(dryRun: bool, script: nat -> Round)
    ensures Run(dryRun, script).notice <==> Run(dryRun, script).verdict == Some(Ok(Exhausted))
    ensures Run(dryRun, script).verdict == Some(Ok(Exhausted)) ==>
      |Run(dryRun, script).calls| == |Run(dryRun, script).records| == MaxAttempts
  {
    RunConsistent(dryRun, script);
  }

  /** Attempt `n` ran the sanitized reply of its round, which passed the
      gate, after the operator confirmed it. */
  ghost predicate RanSafely(round: Round, r: ExecutionHistory) {
    && round.reply.Answered?
    && round.execute
    && r.command == Clean(round.reply.text)
    && IsTrimmed(r.command)
    && !IsDangerous(r.command)
  }

  /** Every record holds a sanitized reply that passed the gate, from an
      attempt where the operator confirmed the execution. */
  lemma ExecutedCommandsPassedGate(dryRun: bool, script: nat -> Round)
    ensures forall i :: 0 <= i < |Run(dryRun, script).records| ==>
      RanSafely(script(i + 1), Run(dryRun, script).records[i])
  {
    RunConsistent(dryRun, script);
    var t := Run(dryRun, script);
    forall i | 0 <= i < |t.records|
      ensures RanSafely(script(i + 1), t.records[i])
    {
      assert Executed(dryRun, script(i + 1), t.records[i], i + 1);
    }
  }

  /** The goal question is asked once per successful execution. */
  lemma GoalAskedPerSuccess(dryRun: bool, script: nat -> Round)
    ensures Run(dryRun, script).goalQuestions == Successes(Run(dryRun, script).records)
    ensures Run(dryRun, script).goalQuestions <= |Run(dryRun, script).records|
  {
    RunConsistent(dryRun, script);
    SuccessesBound(Run(dryRun, script).records);
  }

  lemma {:induction false} SuccessesBound(records: seq<ExecutionHistory>)
    ensures Successes(records) <= |records|
    decreases |records|
  {
    if |records| > 0 {
      SuccessesBound(records[..|records| - 1]);
    }
  }

  /** A loop that stopped at a confirmed goal did so on the last record,
      which succeeded; no earlier successful run had its goal confirmed. */
  lemma GoalMetEndsOnSuccess(dryRun: bool, script: nat -> Round)
    requires Run(dryRun, script).verdict == Some(Ok(GoalMet))
    ensures var t := Run(dryRun, script);
      && 0 < |t.records| == |t.calls|
      && t.records[|t.records| - 1].success
      && script(|t.records|).goalMet
      && forall i :: 0 <= i < |t.records| - 1 ==> !(t.records[i].success && script(i + 1).goalMet)
  {
    RunConsistent(dryRun, script);
  }

  /** The answers of an attempt that reach the execution of the command. */
  predicate Runs(dryRun: bool, round: Round) {
    && round.reply.Answered?
    && !IsDangerous(Clean(round.reply.text))
    && !dryRun
    && round.execute
    && round.execution.Exited?
  }

  lemma RunningPass(dryRun: bool, round: Round, s: LoopState)
    requires s.verdict.None? && Runs(dryRun, round)
    ensures Pass(dryRun, round, s) ==
      Record(s, ExecutionHistory(Clean(round.reply.text), OutputText(round.execution), round.execution.success, s.attempt), round.goalMet)
  {
  }

  /** Each pass makes exactly one backend call, carrying the history slot. */
  lemma EveryPassAsksOnce(dryRun: bool, round: Round, s: LoopState)
    requires s.verdict.None?
    ensures Pass(dryRun, round, s).calls == s.calls + [s.history]
  {
    if Runs(dryRun, round) {
      RunningPass(dryRun, round, s);
    }
  }

  /** A flagged command is refused, in dry-run too, before anything runs. */
  lemma GateRefusesBeforeRunning(dryRun: bool, round: Round, s: LoopState)
    requires s.verdict.None?
    requires round.reply.Answered? && IsDangerous(Clean(round.reply.text))
    ensures var t := Pass(dryRun, round, s);
      && t.verdict == Some(Ok(Refused))
      && t.history == s.history && t.records == s.records && t.goalQuestions == s.goalQuestions
  {
  }

  /** In dry-run the pass stops without running anything. */
  lemma DryRunStopsBeforeRunning(round: Round, s: LoopState)
    requires s.verdict.None?
    ensures var t := Pass(true, round, s);
      t.verdict.Some? && t.history == s.history && t.records == s.records && t.goalQuestions == s.goalQuestions
  {
  }

  /** A declined command is not run, and the run ends without error. */
  lemma DeclineStops(round: Round, s: LoopState)
    requires s.verdict.None?
    requires round.reply.Answered? && !IsDangerous(Clean(round.reply.text)) && !round.execute
    ensures var t := Pass(false, round, s);
      t.verdict == Some(Ok(Declined)) && t.history == s.history && t.records == s.records
  {
  }

  /** A failed execution records stderr, asks nothing, and moves on to the
      next attempt. */
  lemma FailedRunMovesOn(round: Round, s: LoopState, stdout: string, stderr: string)
    requires s.verdict.None?
    requires round.reply.Answered? && !IsDangerous(Clean(round.reply.text)) && round.execute
    requires round.execution == Exited(false, stdout, stderr)
    ensures var t := Pass(false, round, s);
      && t.verdict.None?
      && t.attempt == s.attempt + 1
      && t.goalQuestions == s.goalQuestions
      && t.history == Some(ExecutionHistory(Clean(round.reply.text), stderr, false, s.attempt))
      && t.records == s.records + [t.history.value]
  {
    RunningPass(false, round, s);
  }

  /** A successful execution records stdout and asks the goal question; the
      loop stops exactly when the goal was met. */
  lemma SuccessStopsIffGoal(round: Round, s: LoopState, stdout: string, stderr: string)
    requires s.verdict.None?
    requires round.reply.Answered? && !IsDangerous(Clean(round.reply.text)) && round.execute
    requires round.execution == Exited(true, stdout, stderr)
    ensures var t := Pass(false, round, s);
      && (t.verdict.Some? <==> round.goalMet)
      && (t.verdict.Some? ==> t.verdict == Some(Ok(GoalMet)))
      && t.goalQuestions == s.goalQuestions + 1
      && t.history == Some(ExecutionHistory(Clean(round.reply.text), stdout, true, s.attempt))
      && t.records == s.records + [t.history.value]
  {
    RunningPass(false, round, s);
  }

  /** A backend failure, or a shell that cannot be started, ends the loop
      with an error. */
  lemma FailuresEndInError(dryRun: bool, round: Round, s: LoopState)
    requires s.verdict.None?
    ensures round.reply.BackendError? ==> Pass(dryRun, round, s).verdict == Some(Err(BackendFault))
    ensures (round.reply.Answered? && !IsDangerous(Clean(round.reply.text)) && !dryRun && round.execute &&
             round.execution.SpawnError?) ==> Pass(dryRun, round, s).verdict == Some(Err(SpawnFault))
  {
  }

  /** In dry-run the loop makes one call, records nothing, and stops. */
  lemma DryRunNeverExecutes(script: nat -> Round)
    ensures var t := Run(true, script);
      && t.records == []
      && t.calls == [None]
      && t.goalQuestions == 0
      && t.verdict in {Some(Ok(DryRun)), Some(Ok(Refused)), Some(Err(BackendFault))}
  {
  }

  /** The answers of an attempt whose command runs and fails. */
  predicate FailsSafely(round: Round) {
    && round.reply.Answered?
    && !IsDangerous(Clean(round.reply.text))
    && round.execute
    && round.execution.Exited?
    && !round.execution.success
  }

  lemma {:induction false} DriveFailing(script: nat -> Round, s: LoopState)
    requires s.verdict.None? && 1 <= s.attempt <= MaxAttempts
    requires forall n :: s.attempt <= n <= MaxAttempts ==> FailsSafely(script(n))
    ensures var t := Drive(false, script, s);
      && t.verdict == Some(Ok(Exhausted))
      && t.notice
      && t.goalQuestions == s.goalQuestions
      && |t.calls| == |s.calls| + MaxAttempts + 1 - s.attempt
      && |t.records| == |s.records| + MaxAttempts + 1 - s.attempt
    decreases MaxAttempts - s.attempt
  {
    var t := Pass(false, script(s.attempt), s);
    assert FailsSafely(script(s.attempt));
    if s.attempt < MaxAttempts {
      DriveFailing(script, t);
    }
  }

  /** When every command runs and fails, all three attempts are used, the
      notice is printed and the goal question is never asked. */
  lemma AlwaysFailingExhausts(script: nat -> Round)
    requires forall n :: 1 <= n <= MaxAttempts ==> FailsSafely(script(n))
    ensures var t := Run(false, script);
      && t.verdict == Some(Ok(Exhausted))
      && t.notice
      && |t.calls| == |t.records| == MaxAttempts
      && t.goalQuestions == 0
  {
    DriveFailing(script, Start);
  }

  /** A first reply asking for a recursive delete is refused at once, in
      dry-run too: one call, nothing recorded. */
  lemma DeleteRefusedAtOnce(dryRun: bool, script: nat -> Round, raw: string)
    requires raw == "rm -rf /tmp/x"
    requires script(1).reply == Answered(raw)
    ensures var t := Run(dryRun, script);
      t.verdict == Some(Ok(Refused)) && t.records == [] && t.calls == [None]
  {
    DeleteReplyFlagged(raw);
    GateRefusesBeforeRunning(dryRun, script(1), Start);
    assert Run(dryRun, script) == Pass(dryRun, script(1), Start);
  }

  lemma DeleteReplyFlagged(raw: string)
    requires raw == "rm -rf /tmp/x"
    ensures Clean(raw) == raw && IsDangerous(raw)
  {
    AbsentCharacter(raw, Fence, 0);
    assert IsTrimmed(raw);
    PlainReplyKept(raw);
    assert Lower(raw)[0..6] == Denylist[0];
    assert OccursAt(Lower(raw), Denylist[0], 0);
  }

  /** A fenced listing that runs, succeeds and meets the goal ends the loop
      after one attempt with one record of the sanitized command. */
  lemma ListingMeetsGoal(script: nat -> Round, raw: string, stdout: string, stderr: string)
    requires raw == "```bash\nls -la\n```"
    requires script(1) == Round(Answered(raw), true, Exited(true, stdout, stderr), true)
    ensures var t := Run(false, script);
      && t.verdict == Some(Ok(GoalMet))
      && t.calls == [None]
      && t.records == [ExecutionHistory("ls -la", stdout, true, 1)]
      && t.goalQuestions == 1
  {
    BashBlockExample(raw);
    ListingAllowed();
  }
}

=== FILE: history.dfy ===
/** The record of one executed attempt (`ExecutionHistory`). The loop keeps
    at most one of them, the most recent. */
module History {

  datatype ExecutionHistory = ExecutionHistory(
    command: string,   // the sanitized command that was run
    output: string,    // standard output on success, standard error otherwise
    success: bool,     // the exit status indicated success
    attempt: nat)      // the attempt counter when it ran, from 1
}

=== FILE: prompt_builder.dfy ===
/**
 The prompt builder of `get_ai_response`: the system text (fixed
 instructions followed by a snapshot of the environment) and the user text,
 which either asks for a first command or embeds the previous attempt.
 Formatting follows Rust's `{}`: strings verbatim, `bool` as "true" or
 "false", integers in decimal.
 */
module PromptBuilder {
  import opened Wrappers
  import opened Text
  import opened History

  /** The fixed instructions (`PROMPT`). No property below depends on their
      wording. */
  const Instructions: string :=
    "你是一个Shell命令专家，请根据用户的需求和历史执行结果生成或优化shell命令。\n"
    + "\n"
    + "要求：\n"
    + "- 如果是首次执行（没有历史记录）：\n"
    + "  - 生成一个可执行的shell命令\n"
    + "  - 命令应该尽可能通用和全面，优先使用终端自带的非第三方语句\n"
    + "  - 确保命令的所有参数都是正确且存在的\n"
    + "  - 不要使用代码块标记或其他格式标记\n"
    + "\n"
    + "- 如果有历史执行记录：\n"
    + "  - 分析上一次命令的执行结果\n"
    + "  - 判断是否达到了预期目标\n"
    + "  - 如果未达到目标，分析可能的原因并生成改进的命令\n"
    + "  - 在响应中包含分析结果和改进建议\n"
    + "\n"
    + "- 如果需要写代码或实现shell无法直接完成的功能：\n"
    + "  - 可以使用python脚本方式，例如：\n"
    + "cat << 'EOF' > hello.py\n"
    + "print(\"Hello, World!\")\n"
    + "# ...\n"
    + "EOF\n"
    + "cat << 'EOF' > requirements.txt\n"
    + "# 列出所有的包和版本\n"
    + "...\n"
    + "EOF\n"
    + "python -m venv venv\n"
    + "source venv/bin/activate\n"
    + "pip install -r requirements.txt\n"
    + "python hello.py\n"
    + "\n"
    + "- 终止条件：\n"
    + "  - 命令执行成功且达到预期目标\n"
    + "  - 连续失败次数超过限制\n"
    + "  - 用户手动终止\n"

  /** The operating-system family the binary was compiled for (`cfg!(target_os)`). */
  datatype Os = MacOS | Linux | Windows | OtherOs

  function OsName(os: Os): string {
    match os
    case MacOS => "macOS"
    case Linux => "Linux"
    case Windows => "Windows"
    case OtherOs => "Unknown OS"
  }

  /** `env::var(key).unwrap_or_else(|_| "Unknown")`. The environment is a
      map from the variables whose value `env::var` can return, that is, the
      ones set to valid Unicode, to those values. A variable that is unset
      or holds non-Unicode bytes is absent from the map and reads as
      "Unknown", as both are `Err` in the source. */
  function EnvOrUnknown(env: map<string, string>, key: string): (v: string)
    ensures key in env ==> v == env[key]
    ensures key !in env ==> v == "Unknown"
  {
    if key in env then env[key] else "Unknown"
  }

  /** One labelled line of the environment snapshot. */
  function Line(name: string, value: string): string {
    "- " + name + ": " + value + "\n"
  }

  const InfoHeader: string := "当前系统环境信息：\n"
  const OsLabel: string := "操作系统"

  /** The environment variables of the snapshot, with their labels, in order. */
  datatype EnvField = EnvField(name: string, key: string)
  const EnvFields: seq<EnvField> := [
    EnvField("Shell类型", "SHELL"),
    EnvField("终端类型", "TERM"),
    EnvField("当前用户", "USER"),
    EnvField("当前目录", "PWD")
  ]

  function EnvLines(env: map<string, string>, fields: seq<EnvField>): string {
    if |fields| == 0 then ""
    else Line(fields[0].name, EnvOrUnknown(env, fields[0].key)) + EnvLines(env, fields[1..])
  }

  /** `get_system_info`. */
  function SystemInfo(os: Os, env: map<string, string>): (r: string)
    ensures OccursAt(r, Line(OsLabel, OsName(os)), |InfoHeader|) && r[..|InfoHeader|] == InfoHeader
  {
    InfoHeader + Line(OsLabel, OsName(os)) + EnvLines(env, EnvFields)
  }

  /** `full_prompt`: the instructions, a line break, the snapshot. */
  function SystemText(os: Os, env: map<string, string>): (r: string)
    ensures |Instructions| < |r| && r[..|Instructions|] == Instructions && r[|Instructions|] == '\n'
    ensures r[|Instructions| + 1..] == SystemInfo(os, env)
  {
    Instructions + "\n" + SystemInfo(os, env)
  }

  /** The template pieces of the first-attempt user text. */
  const FirstAsk: string := "现在，用户的问题为："
  const FirstClosing: string := "，请你根据用户的问题生成对应的shell命令来实现用户的需求。"

  /** The template pieces of the retry user text, in order. */
  const RetryAsk: string := "用户的问题为："
  const CommandLabel: string := "\n上一次执行的命令是："
  const OutputLabel: string := "\n执行结果是："
  const SuccessLabel: string := "\n执行是否成功："
  const AttemptLabel: string := "\n这是第"
  const RetryClosing: string := "次尝试。\n请根据上述信息分析执行结果，判断是否达到预期目标，如果没有达到目标，分析原因并生成改进的命令。"

  /** Rust's `{}` rendering of a `bool`. */
  function BoolText(b: bool): (r: string)
    ensures r == "true" || r == "false"
    ensures r == "true" <==> b
  {
    if b then "true" else "false"
  }

  /** `user_prompt`: the `match` on the previous attempt. */
  function UserPrompt(task: string, previous: Option<ExecutionHistory>): (r: string)
    ensures previous.None? ==> OccursAt(r, task, |FirstAsk|) && r[..|FirstAsk|] == FirstAsk
    ensures previous.Some? ==> OccursAt(r, task, |RetryAsk|) && r[..|RetryAsk|] == RetryAsk
  {
    match previous
    case None => FirstAsk + task + FirstClosing
    case Some(h) =>
      RetryAsk + task
      + (CommandLabel + h.command)
      + (OutputLabel + h.output)
      + (SuccessLabel + BoolText(h.success))
      + (AttemptLabel + Decimal(h.attempt) + RetryClosing)
  }

  /** Every environment line is in the snapshot. */
  lemma {:induction false} EnvLinesShowField(env: map<string, string>, fields: seq<EnvField>, k: nat)
    requires k < |fields|
    ensures Contains(EnvLines(env, fields), Line(fields[k].name, EnvOrUnknown(env, fields[k].key)))
  {
    var first := Line(fields[0].name, EnvOrUnknown(env, fields[0].key));
    var rest := EnvLines(env, fields[1..]);
    var line := Line(fields[k].name, EnvOrUnknown(env, fields[k].key));
    assert EnvLines(env, fields) == first + rest;
    if k == 0 {
      assert (first + rest)[0..|first|] == first;
      assert OccursAt(first + rest, line, 0);
    } else {
      assert fields[1..][k - 1] == fields[k];
      EnvLinesShowField(env, fields[1..], k - 1);
      ContainsInContext(rest, line, first, "");
      assert first + rest + "" == first + rest;
    }
  }

  /** Whatever precedes it, the snapshot shows the operating system and each
      variable's value, or "Unknown" for a variable that is not set. */
  lemma SnapshotShowsEnvironment(before: string, os: Os, env: map<string, string>, k: nat)
    requires k < |EnvFields|
    ensures Contains(before + SystemInfo(os, env), Line(OsLabel, OsName(os)))
    ensures Contains(before + SystemInfo(os, env), Line(EnvFields[k].name, EnvOrUnknown(env, EnvFields[k].key)))
  {
    var osLine := Line(OsLabel, OsName(os));
    var lead := before + InfoHeader;
    var rest := EnvLines(env, EnvFields);
    assert before + SystemInfo(os, env) == lead + osLine + rest;
    assert OccursAt(osLine, osLine, 0);
    ContainsInContext(osLine, osLine, lead, rest);
    EnvLinesShowField(env, EnvFields, k);
    ContainsInContext(rest, Line(EnvFields[k].name, EnvOrUnknown(env, EnvFields[k].key)), lead + osLine, "");
    assert lead + osLine + rest + "" == before + SystemInfo(os, env);
  }

  /** The system text shows the operating system and each variable's value,
      or "Unknown" for a variable that is not set. */
  lemma SystemTextShowsEnvironment(os: Os, env: map<string, string>, k: nat)
    requires k < |EnvFields|
    ensures Contains(SystemText(os, env), Line(OsLabel, OsName(os)))
    ensures Contains(SystemText(os, env), Line(EnvFields[k].name, EnvOrUnknown(env, EnvFields[k].key)))
  {
    SnapshotShowsEnvironment(Instructions + "\n", os, env, k);
  }

  /** A variable that is set shows its value. */
  lemma SystemTextShowsSetVariable(os: Os, env: map<string, string>, k: nat)
    requires k < |EnvFields| && EnvFields[k].key in env
    ensures Contains(SystemText(os, env), Line(EnvFields[k].name, env[EnvFields[k].key]))
  {
    SystemTextShowsEnvironment(os, env, k);
  }

  /** A variable that is not set shows "Unknown". */
  lemma SystemTextShowsUnsetVariable(os: Os, env: map<string, string>, k: nat)
    requires k < |EnvFields| && EnvFields[k].key !in env
    ensures Contains(SystemText(os, env), Line(EnvFields[k].name, "Unknown"))
  {
    SystemTextShowsEnvironment(os, env, k);
  }

  /** Two environments that agree on the variables of `fields`. */
  predicate AgreeOn(e1: map<string, string>, e2: map<string, string>, fields: seq<EnvField>) {
    forall k :: 0 <= k < |fields| ==>
      (fields[k].key in e1 <==> fields[k].key in e2) &&
      (fields[k].key in e1 ==> e1[fields[k].key] == e2[fields[k].key])
  }

  lemma {:induction false} EnvLinesFrame(e1: map<string, string>, e2: map<string, string>, fields: seq<EnvField>)
    requires AgreeOn(e1, e2, fields)
    ensures EnvLines(e1, fields) == EnvLines(e2, fields)
  {
    if |fields| > 0 {
      assert AgreeOn(e1, e2, fields[1..]) by {
        forall k | 0 <= k < |fields[1..]|
          ensures fields[1..][k] == fields[k + 1]
        {
        }
      }
      EnvLinesFrame(e1, e2, fields[1..]);
    }
  }

  /** The system text reads no variable other than the four of the snapshot. */
  lemma SystemTextFrame(os: Os, e1: map<string, string>, e2: map<string, string>)
    requires AgreeOn(e1, e2, EnvFields)
    ensures SystemText(os, e1) == SystemText(os, e2)
  {
    EnvLinesFrame(e1, e2, EnvFields);
  }

  /** Reads the task back out of a first-attempt user text. */
  function FirstPromptTask(prompt: string): Option<string> {
    if |prompt| >= |FirstAsk| + |FirstClosing|
       && prompt[..|FirstAsk|] == FirstAsk
       && prompt[|prompt| - |FirstClosing|..] == FirstClosing
    then Some(prompt[|FirstAsk|..|prompt| - |FirstClosing|])
    else None
  }

  /** The first-attempt user text holds the task and nothing else that varies:
      it can be read back, and a text read back is one the builder makes. */
  lemma FirstPromptRoundTrip(task: string, prompt: string)
    ensures FirstPromptTask(UserPrompt(task, None)) == Some(task)
    ensures FirstPromptTask(prompt) == Some(task) ==> UserPrompt(task, None) == prompt
  {
    var p := UserPrompt(task, None);
    assert p[..|FirstAsk|] == FirstAsk;
    assert p[|p| - |FirstClosing|..] == FirstClosing;
    assert p[|FirstAsk|..|p| - |FirstClosing|] == task;
    if FirstPromptTask(prompt) == Some(task) {
      assert prompt == prompt[..|FirstAsk|] + prompt[|FirstAsk|..|prompt| - |FirstClosing|] + prompt[|prompt| - |FirstClosing|..];
    }
  }

  /** A first-attempt text never equals a retry text: they differ in their first character. */
  lemma PromptKindsDiffer(task: string, task': string, h: ExecutionHistory)
    ensures UserPrompt(task, None) != UserPrompt(task', Some(h))
  {
    assert UserPrompt(task, None)[0] == FirstAsk[0];
    assert UserPrompt(task', Some(h))[0] == RetryAsk[0];
  }

  /** For a one-line task the first-attempt text is one line, so it holds none
      of the labels that introduce a previous command, output or outcome. */
  lemma FirstPromptHasNoHistory(task: string)
    requires forall i :: 0 <= i < |task| ==> task[i] != '\n'
    ensures forall i :: 0 <= i < |UserPrompt(task, None)| ==> UserPrompt(task, None)[i] != '\n'
    ensures !Contains(UserPrompt(task, None), CommandLabel)
    ensures !Contains(UserPrompt(task, None), OutputLabel)
    ensures !Contains(UserPrompt(task, None), SuccessLabel)
    ensures !Contains(UserPrompt(task, None), AttemptLabel)
  {
    var p := UserPrompt(task, None);
    assert forall i :: 0 <= i < |FirstAsk| ==> FirstAsk[i] != '\n';
    assert forall i :: 0 <= i < |FirstClosing| ==> FirstClosing[i] != '\n';
    forall i | 0 <= i < |p|
      ensures p[i] != '\n'
    {
      if i < |FirstAsk| {
        assert p[i] == FirstAsk[i];
      } else if i < |FirstAsk| + |task| {
        assert p[i] == task[i - |FirstAsk|];
      } else {
        assert p[i] == FirstClosing[i - |FirstAsk| - |task|];
      }
    }
    AbsentCharacter(p, CommandLabel, 0);
    AbsentCharacter(p, OutputLabel, 0);
    AbsentCharacter(p, SuccessLabel, 0);
    AbsentCharacter(p, AttemptLabel, 0);
  }

  /** The retry text embeds, in this order and each after its label, the task,
      the previous command, its output, its success flag and its attempt number. */
  lemma RetryPromptEmbedsInOrder(task: string, h: ExecutionHistory)
    ensures var r := UserPrompt(task, Some(h));
      var atTask := |RetryAsk|;
      var atCommand := atTask + |task| + |CommandLabel|;
      var atOutput := atCommand + |h.command| + |OutputLabel|;
      var atSuccess := atOutput + |h.output| + |SuccessLabel|;
      var atAttempt := atSuccess + |BoolText(h.success)| + |AttemptLabel|;
      && OccursAt(r, task, atTask)
      && OccursAt(r, CommandLabel + h.command, atCommand - |CommandLabel|)
      && OccursAt(r, OutputLabel + h.output, atOutput - |OutputLabel|)
      && OccursAt(r, SuccessLabel + BoolText(h.success), atSuccess - |SuccessLabel|)
      && OccursAt(r, AttemptLabel + Decimal(h.attempt) + RetryClosing, atAttempt - |AttemptLabel|)
  {
    PiecesInOrder(RetryAsk, task, CommandLabel + h.command, OutputLabel + h.output,
                  SuccessLabel + BoolText(h.success), AttemptLabel + Decimal(h.attempt) + RetryClosing);
  }

  /** Each piece of a concatenation occurs where the pieces before it end. */
  lemma PiecesInOrder(a: string, b: string, c: string, d: string, e: string, f: string)
    ensures var w := a + b + c + d + e + f;
      && OccursAt(w, b, |a|)
      && OccursAt(w, c, |a| + |b|)
      && OccursAt(w, d, |a| + |b| + |c|)
      && OccursAt(w, e, |a| + |b| + |c| + |d|)
      && OccursAt(w, f, |a| + |b| + |c| + |d| + |e|)
  {
    OccursAtEnd(a, b);
    OccursExtends(a + b, c, b, |a|);
    OccursExtends(a + b + c, d, b, |a|);
    OccursExtends(a + b + c + d, e, b, |a|);
    OccursExtends(a + b + c + d + e, f, b, |a|);
    OccursAtEnd(a + b, c);
    OccursExtends(a + b + c, d, c, |a| + |b|);
    OccursExtends(a + b + c + d, e, c, |a| + |b|);
    OccursExtends(a + b + c + d + e, f, c, |a| + |b|);
    OccursAtEnd(a + b + c, d);
    OccursExtends(a + b + c + d, e, d, |a| + |b| + |c|);
    OccursExtends(a + b + c + d + e, f, d, |a| + |b| + |c|);
    OccursAtEnd(a + b + c + d, e);
    OccursExtends(a + b + c + d + e, f, e, |a| + |b| + |c| + |d|);
    OccursAtEnd(a + b + c + d + e, f);
  }

  /** The retry text shows the previous command and its captured output. */
  lemma RetryPromptShowsPrevious(task: string, h: ExecutionHistory)
    ensures Contains(UserPrompt(task, Some(h)), h.command)
    ensures Contains(UserPrompt(task, Some(h)), h.output)
  {
    RetryPromptEmbedsInOrder(task, h);
    var r := UserPrompt(task, Some(h));
    var atCommand := |RetryAsk| + |task| + |CommandLabel|;
    var atOutput := atCommand + |h.command| + |OutputLabel|;
    assert r[atCommand - |CommandLabel|..atCommand + |h.command|][|CommandLabel|..] == h.command;
    assert OccursAt(r, h.command, atCommand);
    assert r[atOutput - |OutputLabel|..atOutput + |h.output|][|OutputLabel|..] == h.output;
    assert OccursAt(r, h.output, atOutput);
  }
}

=== FILE: safety_gate.dfy ===
/**
 The safety gate of the command assistant: a command is refused when its
 lowercased text contains any entry of a fixed denylist, by plain substring
 containment. Two properties of the list as written are kept deliberately:
 the entry "chmod -R" keeps an uppercase letter and so can never match a
 lowercased command, and "dd" matches inside ordinary words such as "add".
 */
module SafetyGate {
  import opened Text

  /** The denylist, in the order the source declares it. */
  const Denylist: seq<string> := ["rm -rf", "mkfs", "dd", "> /dev/", "chmod -R", ":(){ :|:& };:"]

  /** Does some entry of `entries` occur in `lowered`? The scan of
      `Iterator::any` over the list. */
  function AnyEntryIn(lowered: string, entries: seq<string>): (r: bool)
    ensures r <==> exists k :: 0 <= k < |entries| && Contains(lowered, entries[k])
  {
    if |entries| == 0 then false
    else Contains(lowered, entries[0]) || AnyEntryIn(lowered, entries[1..])
  }

  /** `is_dangerous_command`: the lowercased command contains a denylist entry. */
  predicate IsDangerous(command: string)
    ensures IsDangerous(command) <==>
      exists k :: 0 <= k < |Denylist| && Contains(Lower(command), Denylist[k])
  {
    AnyEntryIn(Lower(command), Denylist)
  }

  /** The verdict depends on the command only up to letter case. */
  lemma CaseInsensitive(c: string, d: string)
    requires SameUpToCase(c, d)
    ensures IsDangerous(c) == IsDangerous(d)
  {
    assert Lower(c) == Lower(d);
  }

  /** ASCII upper-casing of a command never changes the verdict. Full Unicode
      upper-casing can: U+017F (long s) upper-cases to 'S' but lowercases to
      itself. */
  lemma UppercaseKeepsVerdict(c: string)
    ensures IsDangerous(Upper(c)) == IsDangerous(c)
  {
    UpperIsSameUpToCase(c);
    CaseInsensitive(c, Upper(c));
  }

  /** The entry "chmod -R" never fires: a lowercased string has no 'R'. */
  lemma ChmodEntryNeverFires(command: string)
    ensures !Contains(Lower(command), Denylist[4])
  {
    AbsentCharacter(Lower(command), Denylist[4], 7);
  }

  /** Hence the gate in effect uses only the other five entries. */
  lemma EffectiveDenylist(command: string)
    ensures IsDangerous(command) <==>
      exists k :: 0 <= k < |Denylist| && k != 4 && Contains(Lower(command), Denylist[k])
  {
    ChmodEntryNeverFires(command);
  }

  /** A dangerous command stays dangerous inside any longer command line. */
  lemma DangerousInContext(command: string, before: string, after: string)
    requires IsDangerous(command)
    ensures IsDangerous(before + command + after)
  {
    var k :| 0 <= k < |Denylist| && Contains(Lower(command), Denylist[k]);
    ContainsInContext(Lower(command), Denylist[k], Lower(before), Lower(after));
    assert Lower(before + command + after) == Lower(before) + Lower(command) + Lower(after);
  }

  /** Upper-case spelling of a recursive delete is still refused. */
  lemma UppercaseDeleteRefused()
    ensures IsDangerous("RM -RF /")
  {
    assert Lower("RM -RF /")[0..6] == "rm -rf";
    assert OccursAt(Lower("RM -RF /"), Denylist[0], 0);
  }

  /** A recursive permission change is let through. */
  lemma RecursiveChmodAllowed()
    ensures !IsDangerous("chmod -R 777 /")
  {
    var l := Lower("chmod -R 777 /");
    assert l == "chmod -r 777 /";
    AbsentCharacter(l, Denylist[0], 5);
    AbsentCharacter(l, Denylist[1], 1);
    NoDoubleD(l);
    AbsentCharacter(l, Denylist[3], 0);
    AbsentCharacter(l, Denylist[4], 7);
    AbsentCharacter(l, Denylist[5], 0);
  }

  lemma NoDoubleD(l: string)
    requires l == "chmod -r 777 /"
    ensures !Contains(l, "dd")
  {
    forall i | 0 <= i <= |l| - 2
      ensures !OccursAt(l, "dd", i)
    {
      assert l[i..i + 2][0] == l[i] && l[i..i + 2][1] == l[i + 1];
    }
  }

  /** "dd" over-matches: an innocent "add" is refused. */
  lemma DdOverMatches()
    ensures IsDangerous("git add .")
  {
    assert Lower("git add .")[5..7] == "dd";
    assert OccursAt(Lower("git add ."), Denylist[2], 5);
  }

  /** The KELVIN SIGN lowercases to 'k', so it completes "mkfs". */
  lemma KelvinSignSpellsMkfs()
    ensures IsDangerous("m\U{212A}fs /dev/sda1")
  {
    assert Lower("m\U{212A}fs /dev/sda1")[0..4] == "mkfs";
    assert OccursAt(Lower("m\U{212A}fs /dev/sda1"), Denylist[1], 0);
  }

  /** A plain listing passes the gate. */
  lemma ListingAllowed()
    ensures !IsDangerous("ls -la")
  {
    var l := Lower("ls -la");
    assert l == "ls -la";
    AbsentCharacter(l, Denylist[0], 0);
    AbsentCharacter(l, Denylist[1], 0);
    AbsentCharacter(l, Denylist[2], 0);
    AbsentCharacter(l, Denylist[3], 0);
    AbsentCharacter(l, Denylist[4], 0);
    AbsentCharacter(l, Denylist[5], 0);
  }
}

=== FILE: sanitizer.dfy ===
/**
 The sanitizer `clean_command_output`: the leftmost match of the pattern
 ```` ```(?:shell|bash)?\s*\n?([\s\S]*?)``` ```` selects a fenced block whose
 interior, trimmed, is the command; without a match the whole reply is
 trimmed.

 Under the leftmost-first semantics of the `regex` crate the match is
 determined as follows. A match exists exactly when the first fence in the
 text is followed by a second fence that does not overlap it; the match
 starts at that first fence. The optional tag is preferred and, as tag
 letters contain no backtick, it is taken whenever it is present. The greedy
 `\s*` and the optional `\n` only consume whitespace, which the final trim
 removes anyway, and the lazy group stops at the first fence after the tag.
 So the result is the trimmed text between the end of the tag and the next
 fence.
 */
module Sanitizer {
  import opened Wrappers
  import opened Text

  const Fence: string := "```"

  /** Some fence is followed by a second, non-overlapping fence. */
  predicate HasBlock(s: string) {
    exists a, b | 0 <= a && a + |Fence| <= b <= |s| :: OccursAt(s, Fence, a) && OccursAt(s, Fence, b)
  }

  /** Length of the optional `shell` or `bash` tag at index `p`. */
  function TagLength(s: string, p: nat): (n: nat)
    ensures p + n <= |s| || n == 0
    ensures n == 5 ==> OccursAt(s, "shell", p)
    ensures n == 4 ==> OccursAt(s, "bash", p)
    ensures n == 0 || n == 4 || n == 5
  {
    if OccursAt(s, "shell", p) then 5 else if OccursAt(s, "bash", p) then 4 else 0
  }

  /** A fence cannot start inside a tag: tag letters are not backticks. */
  lemma NoFenceInsideTag(s: string, p: nat, j: int)
    requires p <= j < p + TagLength(s, p)
    ensures !OccursAt(s, Fence, j)
  {
    var n := TagLength(s, p);
    var tag := if n == 5 then "shell" else "bash";
    assert s[p..p + n] == tag;
    assert s[j] == tag[j - p] != '`';
    if j + |Fence| <= |s| {
      assert s[j..j + |Fence|][0] == s[j];
    }
  }

  lemma NoFenceBeforeTagEnd(s: string, p: nat)
    ensures forall j :: p <= j < p + TagLength(s, p) ==> !OccursAt(s, Fence, j)
  {
    forall j | p <= j < p + TagLength(s, p)
      ensures !OccursAt(s, Fence, j)
    {
      NoFenceInsideTag(s, p, j);
    }
  }

  /** A slice of `s` holds no fence if `s` holds none that starts in the
      slice's range, and neither does the slice's trim. */
  lemma NoFenceInTrimmedSlice(s: string, start: nat, close: nat)
    requires start <= close <= |s|
    requires forall j :: start <= j < close ==> !OccursAt(s, Fence, j)
    ensures !Contains(s[start..close], Fence)
    ensures !Contains(Trim(s[start..close]), Fence)
  {
    var body := s[start..close];
    RangeKeepsAbsence(s, start, close, Fence);
    var off, r := TrimOffset(body), Trim(body);
    assert r == body[off..off + |r|];
    SliceKeepsAbsence(body, off, off + |r|, Fence);
  }

  /** The bounds `(start, close)` of the captured group of the leftmost
      match, when there is one. */
  function Capture(s: string): (r: Option<(nat, nat)>)
    ensures r.None? <==> !HasBlock(s)
    ensures r.Some? ==> FindFrom(s, Fence, 0).Some?
    ensures r.Some? ==>
      var p := FindFrom(s, Fence, 0).value + |Fence|;
      r.value.0 == p + TagLength(s, p)
    ensures r.Some? ==> r.value.0 <= r.value.1 && OccursAt(s, Fence, r.value.1)
    ensures r.Some? ==> forall j :: r.value.0 <= j < r.value.1 ==> !OccursAt(s, Fence, j)
  {
    match FindFrom(s, Fence, 0)
    case None => None
    case Some(open) =>
      var p := open + |Fence|;
      match FindFrom(s, Fence, p)
      case None => None
      case Some(close) =>
        var start := p + TagLength(s, p);
        NoFenceBeforeTagEnd(s, p);
        Some((start, close))
  }

  /** `clean_command_output`. */
  function Clean(raw: string): (r: string)
    ensures IsTrimmed(r)
  {
    match Capture(raw)
    case None => Trim(raw)
    case Some((start, close)) => Trim(raw[start..close])
  }

  /** What the pattern extracts, trimmed, never holds a fence. */
  lemma ExtractedHasNoFence(raw: string)
    requires HasBlock(raw)
    ensures !Contains(Clean(raw), Fence)
  {
    var c := Capture(raw).value;
    NoFenceInTrimmedSlice(raw, c.0, c.1);
  }

  /** `x` starts with a tag the pattern would take. */
  predicate StartsWithTag(x: string) {
    OccursAt(x, "shell", 0) || OccursAt(x, "bash", 0)
  }

  /** No fence lies before the end of `pre`: none in `pre` itself and none
      straddling into the fence that follows it. */
  lemma FirstFenceAfter(pre: string, rest: string)
    requires !Contains(pre + "``", Fence)
    ensures FindFrom(pre + Fence + rest, Fence, 0) == Some(|pre|)
  {
    var s := pre + Fence + rest;
    assert s[|pre|..|pre| + 3] == Fence;
    assert s[..|pre| + 2] == pre + "``";
    forall j | 0 <= j < |pre|
      ensures !OccursAt(s, Fence, j)
    {
      if OccursAt(s, Fence, j) {
        OccursInRange(s, 0, |pre| + 2, Fence, j);
      }
    }
    FindFromIs(s, Fence, 0, |pre|);
  }

  /** A fence-free body followed by a fence: the first fence at or after the
      body's start is the one right after it. */
  lemma FenceClosesBody(u: string, body: string, post: string)
    requires !Contains(body + "``", Fence)
    ensures OccursAt(u + body + Fence + post, Fence, |u| + |body|)
    ensures forall j :: |u| <= j < |u| + |body| ==> !OccursAt(u + body + Fence + post, Fence, j)
    ensures (u + body + Fence + post)[|u|..|u| + |body|] == body
  {
    var s := u + body + Fence + post;
    assert s[|u|..|u| + |body|] == body;
    assert s[|u| + |body|..|u| + |body| + 3] == Fence;
    assert s[|u|..|u| + |body| + 2] == body + "``";
    forall j | |u| <= j < |u| + |body|
      ensures !OccursAt(s, Fence, j)
    {
      if OccursAt(s, Fence, j) {
        OccursInRange(s, |u|, |u| + |body| + 2, Fence, j);
      }
    }
  }

  /** A text that follows a fence is not read as a tag unless it starts with one. */
  lemma TagOf(tag: string, body: string, rest: string)
    requires tag == "shell" || tag == "bash" || (tag == "" && !StartsWithTag(body))
    ensures TagLength(tag + body + Fence + rest, 0) == |tag|
  {
    var s := tag + body + Fence + rest;
    if tag == "shell" {
      assert s[0..5] == "shell";
    } else if tag == "bash" {
      assert s[0..4] == "bash";
      assert s[0] != "shell"[0];
    } else {
      assert s == body + Fence + rest;
      if |body| >= 5 {
        assert s[..5] == body[..5];
      } else {
        assert s[|body|] == '`';
      }
      if |body| >= 4 {
        assert s[..4] == body[..4];
      } else {
        assert s[|body|] == '`';
      }
    }
  }

  lemma TagLengthShift(prefix: string, s: string)
    ensures TagLength(prefix + s, |prefix|) == TagLength(s, 0)
  {
    var w := prefix + s;
    if |s| >= 5 { assert w[|prefix|..|prefix| + 5] == s[..5]; }
    if |s| >= 4 { assert w[|prefix|..|prefix| + 4] == s[..4]; }
  }

  /** `Clean` in terms of positions: the first fence at `open`, the tag after
      it, and the first fence `close` after the tag. */
  lemma CleanAt(s: string, open: nat, start: nat, close: nat, body: string)
    requires FindFrom(s, Fence, 0) == Some(open)
    requires start == open + 3 + TagLength(s, open + 3) <= close
    requires OccursAt(s, Fence, close)
    requires forall j :: start <= j < close ==> !OccursAt(s, Fence, j)
    requires s[start..close] == body
    ensures Clean(s) == Trim(body)
  {
    assert OccursAt(s, Fence, open);
    assert HasBlock(s);
    var r := Capture(s);
    assert r.Some?;
    var c := r.value;
    assert c.0 == open + 3 + TagLength(s, open + 3);
    assert !(c.1 < close);
    assert c.1 == close;
  }

  /** Where the leftmost match opens in a text of the shape `pre`, fence,
      tag, `body`, fence, `post`: at the end of `pre`, and its tag is `tag`. */
  lemma OpeningPosition(pre: string, tag: string, body: string, post: string)
    requires !Contains(pre + "``", Fence)
    requires tag == "shell" || tag == "bash" || (tag == "" && !StartsWithTag(body))
    ensures var s := pre + Fence + tag + body + Fence + post;
      && FindFrom(s, Fence, 0) == Some(|pre|)
      && TagLength(s, |pre| + 3) == |tag|
  {
    var rest := tag + body + Fence + post;
    assert pre + Fence + tag + body + Fence + post == pre + Fence + rest;
    FirstFenceAfter(pre, rest);
    TagOf(tag, body, post);
    TagLengthShift(pre + Fence, rest);
  }

  /** The extraction branch, stated on the shape of the input: leading text
      without a fence, a fence, an optional tag, a body without a fence, a
      fence, anything. The result is the trimmed body. */
  lemma CleanExtractsBlock(pre: string, tag: string, body: string, post: string)
    requires !Contains(pre + "``", Fence)
    requires tag == "shell" || tag == "bash" || (tag == "" && !StartsWithTag(body))
    requires !Contains(body + "``", Fence)
    ensures Clean(pre + Fence + tag + body + Fence + post) == Trim(body)
  {
    var u := pre + Fence + tag;
    var s := u + body + Fence + post;
    OpeningPosition(pre, tag, body, post);
    FenceClosesBody(u, body, post);
    CleanAt(s, |pre|, |u|, |u| + |body|, body);
  }

  /** Without a block, the reply is only trimmed. */
  lemma CleanWithoutBlock(raw: string)
    requires !HasBlock(raw)
    ensures Clean(raw) == Trim(raw)
  {
  }

  /** A reply without a fence and without surrounding whitespace is kept as it is. */
  lemma PlainReplyKept(raw: string)
    requires !Contains(raw, Fence) && IsTrimmed(raw)
    ensures Clean(raw) == raw
  {
    NoFenceNoBlock(raw);
  }

  /** A text that holds no fence holds no block. */
  lemma NoFenceNoBlock(s: string)
    requires !Contains(s, Fence)
    ensures !HasBlock(s)
  {
  }

  /** Trimming a text without a block cannot create one. */
  lemma TrimKeepsNoBlock(s: string)
    requires !HasBlock(s)
    ensures !HasBlock(Trim(s))
  {
    var t := Trim(s);
    var k := TrimOffset(s);
    SliceKeepsNoBlock(s, k, k + |t|);
  }

  /** A slice of a text without a block holds no block either. */
  lemma SliceKeepsNoBlock(s: string, lo: nat, hi: nat)
    requires lo <= hi <= |s|
    requires !HasBlock(s)
    ensures !HasBlock(s[lo..hi])
  {
    var t := s[lo..hi];
    forall a, b | 0 <= a && a + |Fence| <= b <= |t| && OccursAt(t, Fence, a)
      ensures !OccursAt(t, Fence, b)
    {
      OccursInSlice(s, lo, hi, Fence, a);
      if OccursAt(t, Fence, b) {
        OccursInSlice(s, lo, hi, Fence, b);
      }
    }
  }

  /** `clean_command_output` is idempotent. */
  lemma CleanIdempotent(raw: string)
    ensures Clean(Clean(raw)) == Clean(raw)
  {
    var r := Clean(raw);
    if HasBlock(raw) {
      ExtractedHasNoFence(raw);
      NoFenceNoBlock(r);
    } else {
      TrimKeepsNoBlock(raw);
    }
  }

  lemma TrimListing()
    ensures Trim("\nls -la\n") == "ls -la"
  {
    var s := "\nls -la\n";
    assert s[1..] == "ls -la\n";
    assert TrimStart(s[1..]) == "ls -la\n";
    var t := "ls -la\n";
    assert t[..|t| - 1] == "ls -la";
    assert TrimEnd(t[..|t| - 1]) == "ls -la";
  }

  /** A tagged block: "```bash\nls -la\n```" yields "ls -la". */
  lemma BashBlockExample(raw: string)
    requires raw == "```bash\nls -la\n```"
    ensures Clean(raw) == "ls -la"
  {
    var pre, tag, body, post := raw[..0], raw[3..7], raw[7..15], raw[18..];
    assert tag == "bash" && body == "\nls -la\n";
    forall j | 0 <= j <= |body + "``"| - |Fence|
      ensures !OccursAt(body + "``", Fence, j)
    {
      assert (body + "``")[j..j + 3][0] == (body + "``")[j];
    }
    assert raw == pre + Fence + tag + body + Fence + post;
    CleanExtractsBlock(pre, tag, body, post);
    TrimListing();
  }
}

=== FILE: text.dfy ===
/**
 Character and string primitives the command assistant relies on, stated the
 way the Rust standard library and the `regex` crate define them: Unicode
 whitespace, `str::trim`, substring search, `str::to_lowercase` (restricted to
 the characters that matter here) and the decimal rendering of an integer.
 */
module Text {
  import opened Wrappers

  /** The Unicode `White_Space` property: what `char::is_whitespace`,
      `str::trim` and the regex class `\s` all use. */
  predicate IsWhitespace(c: char) {
    || ('\t' <= c <= '\r')
    || c == ' '
    || c == '\U{85}'
    || c == '\U{A0}'
    || c == '\U{1680}'
    || ('\U{2000}' <= c <= '\U{200A}')
    || c == '\U{2028}'
    || c == '\U{2029}'
    || c == '\U{202F}'
    || c == '\U{205F}'
    || c == '\U{3000}'
  }

  /** A string with no whitespace at either end. */
  predicate IsTrimmed(s: string) {
    |s| == 0 || (!IsWhitespace(s[0]) && !IsWhitespace(s[|s| - 1]))
  }

  function TrimStart(s: string): (r: string)
    ensures |r| <= |s| && r == s[|s| - |r|..]
    ensures forall i :: 0 <= i < |s| - |r| ==> IsWhitespace(s[i])
    ensures |r| > 0 ==> !IsWhitespace(r[0])
  {
    if |s| > 0 && IsWhitespace(s[0]) then TrimStart(s[1..]) else s
  }

  function TrimEnd(s: string): (r: string)
    ensures |r| <= |s| && r == s[..|r|]
    ensures forall i :: |r| <= i < |s| ==> IsWhitespace(s[i])
    ensures |r| > 0 ==> !IsWhitespace(r[|r| - 1])
  {
    if |s| > 0 && IsWhitespace(s[|s| - 1]) then TrimEnd(s[..|s| - 1]) else s
  }

  /** `str::trim`: the longest slice of `s` that neither starts nor ends with
      whitespace, obtained by dropping only whitespace. */
  function Trim(s: string): (r: string)
    ensures IsTrimmed(r)
    ensures 0 <= TrimOffset(s) <= |s| - |r| && r == s[TrimOffset(s)..TrimOffset(s) + |r|]
    ensures forall i :: 0 <= i < TrimOffset(s) ==> IsWhitespace(s[i])
    ensures forall i :: TrimOffset(s) + |r| <= i < |s| ==> IsWhitespace(s[i])
    ensures IsTrimmed(s) ==> r == s
  {
    TrimEnd(TrimStart(s))
  }

  /** Where the trimmed slice starts: the number of leading whitespace characters. */
  function TrimOffset(s: string): nat {
    |s| - |TrimStart(s)|
  }

  /** `p` occurs in `s` starting at index `i`. */
  predicate OccursAt(s: string, p: string, i: int) {
    0 <= i && i + |p| <= |s| && s[i..i + |p|] == p
  }

  /** `str::contains`: plain substring containment. */
  predicate Contains(s: string, p: string) {
    exists i | 0 <= i <= |s| - |p| :: OccursAt(s, p, i)
  }

  /** `str::find` from index `from`: the first occurrence of `p` at or after `from`. */
  function FindFrom(s: string, p: string, from: nat): (r: Option<nat>)
    ensures r.Some? ==> from <= r.value && OccursAt(s, p, r.value)
    ensures r.Some? ==> forall j :: from <= j < r.value ==> !OccursAt(s, p, j)
    ensures r.None? ==> forall j :: from <= j ==> !OccursAt(s, p, j)
    decreases |s| - from
  {
    if from + |p| > |s| then None
    else if s[from..from + |p|] == p then Some(from)
    else FindFrom(s, p, from + 1)
  }

  /** `FindFrom` returns the occurrence at `i` when none precedes it. */
  lemma FindFromIs(s: string, p: string, from: nat, i: nat)
    requires from <= i && OccursAt(s, p, i)
    requires forall j :: from <= j < i ==> !OccursAt(s, p, j)
    ensures FindFrom(s, p, from) == Some(i)
  {
    var r := FindFrom(s, p, from);
    assert r.Some?;
    assert !(r.value < i);
  }

  /** An occurrence inside a slice is an occurrence in the whole string. */
  lemma OccursInSlice(s: string, a: nat, b: nat, p: string, j: int)
    requires a <= b <= |s|
    requires OccursAt(s[a..b], p, j)
    ensures OccursAt(s, p, a + j)
  {
    forall t | 0 <= t < |p|
      ensures s[a + j..a + j + |p|][t] == p[t]
    {
      assert s[a..b][j..j + |p|][t] == p[t];
    }
  }

  /** An occurrence that lies within `[a, b)` is an occurrence in the slice `s[a..b]`. */
  lemma OccursInRange(s: string, a: nat, b: nat, p: string, i: int)
    requires a <= i && i + |p| <= b <= |s|
    requires OccursAt(s, p, i)
    ensures OccursAt(s[a..b], p, i - a)
  {
    forall t | 0 <= t < |p|
      ensures s[a..b][i - a..i - a + |p|][t] == p[t]
    {
      assert s[i..i + |p|][t] == p[t];
    }
  }

  /** A pattern that starts nowhere in `[a, b)` of `s` is absent from `s[a..b]`. */
  lemma RangeKeepsAbsence(s: string, a: nat, b: nat, p: string)
    requires a <= b <= |s| && |p| > 0
    requires forall j :: a <= j < b ==> !OccursAt(s, p, j)
    ensures !Contains(s[a..b], p)
  {
    forall j | 0 <= j <= |s[a..b]| - |p|
      ensures !OccursAt(s[a..b], p, j)
    {
      if OccursAt(s[a..b], p, j) {
        OccursInSlice(s, a, b, p, j);
      }
    }
  }

  /** A pattern absent from a string is absent from each of its slices. */
  lemma SliceKeepsAbsence(s: string, a: nat, b: nat, p: string)
    requires a <= b <= |s|
    requires !Contains(s, p)
    ensures !Contains(s[a..b], p)
  {
    forall j | 0 <= j <= |s[a..b]| - |p|
      ensures !OccursAt(s[a..b], p, j)
    {
      if OccursAt(s[a..b], p, j) {
        OccursInSlice(s, a, b, p, j);
      }
    }
  }

  /** `p` occurs at the end of `x + p`. */
  lemma OccursAtEnd(x: string, p: string)
    ensures OccursAt(x + p, p, |x|)
  {
    assert (x + p)[|x|..|x| + |p|] == p;
  }

  /** An occurrence stays where it is when text is appended. */
  lemma OccursExtends(x: string, y: string, p: string, i: int)
    requires OccursAt(x, p, i)
    ensures OccursAt(x + y, p, i)
  {
    assert (x + y)[i..i + |p|] == x[i..i + |p|];
  }

  /** Containment is preserved by putting text around the string. */
  lemma ContainsInContext(s: string, p: string, before: string, after: string)
    requires Contains(s, p)
    ensures Contains(before + s + after, p)
  {
    var i :| 0 <= i <= |s| - |p| && OccursAt(s, p, i);
    var w := before + s + after;
    assert w[|before| + i..|before| + i + |p|] == s[i..i + |p|];
    assert OccursAt(w, p, |before| + i);
  }

  /** If some character of `p` never appears in `s`, then `p` does not occur in `s`. */
  lemma AbsentCharacter(s: string, p: string, k: nat)
    requires k < |p|
    requires forall i :: 0 <= i < |s| ==> s[i] != p[k]
    ensures !Contains(s, p)
  {
    forall i | 0 <= i <= |s| - |p|
      ensures !OccursAt(s, p, i)
    {
      assert s[i..i + |p|][k] == s[i + k];
    }
  }

  /** The lowercase mapping of `str::to_lowercase` on the characters it sends
      to ASCII: `A`-`Z`, and KELVIN SIGN (U+212A), which becomes `k`. */
  function LowerChar(c: char): (r: char)
    ensures !('A' <= r <= 'Z')
    ensures 'A' <= c <= 'Z' ==> r as int == c as int + 32
    ensures c == '\U{212A}' ==> r == 'k'
    ensures !('A' <= c <= 'Z') && c != '\U{212A}' ==> r == c
  {
    if 'A' <= c <= 'Z' then (c as int - 'A' as int + 'a' as int) as char
    else if c == '\U{212A}' then 'k'
    else c
  }

  /** ASCII uppercase mapping, used to state case-insensitivity. */
  function UpperChar(c: char): char {
    if 'a' <= c <= 'z' then (c as int - 'a' as int + 'A' as int) as char else c
  }

  /** `str::to_lowercase`, character by character with `LowerChar`. */
  function Lower(s: string): (r: string)
    ensures |r| == |s| && forall i :: 0 <= i < |s| ==> r[i] == LowerChar(s[i])
  {
    seq(|s|, i requires 0 <= i < |s| => LowerChar(s[i]))
  }

  /** ASCII upper-casing of a whole string. */
  function Upper(s: string): (r: string)
    ensures |r| == |s| && forall i :: 0 <= i < |s| ==> r[i] == UpperChar(s[i])
  {
    seq(|s|, i requires 0 <= i < |s| => UpperChar(s[i]))
  }

  /** Two strings that differ at most in the letter case of their characters. */
  predicate SameUpToCase(s: string, t: string) {
    |s| == |t| && forall i :: 0 <= i < |s| ==> LowerChar(s[i]) == LowerChar(t[i])
  }

  lemma UpperIsSameUpToCase(s: string)
    ensures SameUpToCase(s, Upper(s))
  {
    forall i | 0 <= i < |s|
      ensures LowerChar(s[i]) == LowerChar(Upper(s)[i])
    {
    }
  }

  /** A string whose characters are all decimal digits. */
  predicate IsDigits(s: string) {
    forall i :: 0 <= i < |s| ==> '0' <= s[i] <= '9'
  }

  function DigitChar(d: nat): (c: char)
    requires d < 10
    ensures '0' <= c <= '9' && c as int - '0' as int == d
  {
    ('0' as int + d) as char
  }

  /** The `{}` rendering of an unsigned integer: its decimal digits, without
      leading zeros. */
  function Decimal(n: nat): (r: string)
    ensures |r| >= 1 && IsDigits(r)
    ensures r[0] == '0' ==> n == 0
    decreases n
  {
    if n < 10 then [DigitChar(n)] else Decimal(n / 10) + [DigitChar(n % 10)]
  }

  /** Reads a string of decimal digits back as a number. */
  function ParseDecimal(s: string): nat
    requires IsDigits(s)
  {
    if |s| == 0 then 0
    else ParseDecimal(s[..|s| - 1]) * 10 + (s[|s| - 1] as int - '0' as int)
  }

  lemma {:induction false} DecimalRoundTrip(n: nat)
    ensures ParseDecimal(Decimal(n)) == n
    decreases n
  {
    if n >= 10 {
      var r := Decimal(n);
      assert r[..|r| - 1] == Decimal(n / 10);
      DecimalRoundTrip(n / 10);
    }
  }

  lemma DecimalInjective(m: nat, n: nat)
    requires Decimal(m) == Decimal(n)
    ensures m == n
  {
    DecimalRoundTrip(m);
    DecimalRoundTrip(n);
  }
}

=== FILE: wrappers.dfy ===
/** The optional-value datatype shared by the modules of this model
    (Rust's `Option`). */
module Wrappers {

  datatype Option<+T> = None | Some(value: T)
}
